=== FILE: README.md ===
# Booking flow: navigation controller and vehicle selection

A Dafny model of the two stateful parts of a client-side single-page car
booking flow:

- **The navigation controller** (`BookingSPA`, `js/foundation.js`). It works out the page from the
  query string and remembers the booking id. It drives a light/dark theme toggle. It loads pages:
  each page's HTML fragment is swapped into the app container, the page's companion script is
  attached under the single `page-script` slot, and a history entry is pushed.
- **The vehicle-selection screen** (`VehicleSelection`, `js/vehicle-selection.js`). It loads the
  vehicle inventory and shows it as cards, filtered by category. It lets the user pick one vehicle
  and enables the continue button once one is picked.

Every browser effect is a value here. The preference store is a `map<string, string>`. Fetch and
script-load results are input datatypes. The app container is a tagged `View`. The vehicle grid is a
list of `(Car ID, selected)` cards. The document's script elements are a sequence. History is an
appended sequence of page names. Each handler is a pure function from one immutable state record to
the next, and runs to completion before the next event.

Modules:

| file | module | models |
|---|---|---|
| `wrappers.dfy` | `Wrappers` | `Option`, JavaScript truthiness of a string-or-null, `a \|\| b` |
| `storage.dfy` | `Storage` | `localStorage.getItem` / `setItem` and the three keys used |
| `subsequences.dfy` | `Subsequences` | order-preserving subsequence |
| `vehicle_cards.dfy` | `VehicleCards` | vehicle record, category filter, card rendering, in-place selection marking |
| `vehicle_selection.dfy` | `VehicleSelection` | the screen record, the inventory load, filter clicks, selection, continue, display modes |
| `page_names.dfy` | `PageNames` | `getPageName`, both as written and as intended (see Findings) |
| `page_scripts.dfy` | `PageScripts` | script elements and the single page-script slot |
| `theme.dfy` | `Theme` | theme toggle setup and change listener |
| `booking_spa.dfy` | `BookingSpa` | the controller record, `getCurrentPage`, `updateBookingId`, `loadPage`, `loadPageScript`, `popstate`, `init` |

Behaviour of the code that a reader might not expect; the model follows the code:

- Theme setup only sets the toggle's checked state. The root `data-theme` attribute is written only
  when the toggle changes, not at start-up.
- `selectVehicle` enables the continue button whatever id it is given, even an id that matches no
  card.
- A selection restored from storage does not enable the continue button. Only a click on a select
  button does.
- `currentPage` can be any non-empty string from the query, not only one of the four known pages.

## Model

| member | source | states |
|---|---|---|
| `VehicleCards.FilterByType` | js/vehicle-selection.js:57 | the filtered list is no longer than the inventory and every record in it has `Type` equal to the filter |
| `VehicleCards.FilterIsSubsequence` | js/vehicle-selection.js:57 | the filtered list is an order-preserving subsequence of the inventory |
| `VehicleCards.FilterCounts` | js/vehicle-selection.js:57 | each matching record occurs in the filtered list as often as in the inventory, and a non-matching one never does; no match is dropped |
| `VehicleCards.Visible` | js/vehicle-selection.js:55-57 | under "all" the visible list is the inventory itself, same length and order; otherwise it is the order-preserving subsequence of exactly the records whose `Type` equals the filter |
| `VehicleCards.RenderCards` | js/vehicle-selection.js:59-74 | one card per visible record, in order; a card's button is marked selected iff the selection equals its `Car ID` |
| `VehicleCards.MarkSelection` | js/vehicle-selection.js:105-109 | the in-place pass keeps every button and marks it iff its `data-id` equals the chosen id |
| `VehicleCards.MarkingAgreesWithRender` | js/vehicle-selection.js:105-109 | marking the rendered buttons in place gives exactly the cards a fresh render with the new selection gives |
| `VehicleCards.RenderMarksAtMostOneId` | js/vehicle-selection.js:68-71 | a render never marks cards with two different ids |
| `VehicleSelection.ModeOf` | js/vehicle-selection.js:125-141 | a display mode is read off the region flags exactly when one region is visible |
| `VehicleSelection.Show` | js/vehicle-selection.js:125-141 | showLoading shows only the loading indicator, showGrid only the grid, showError only the error panel: exactly one region visible, its own |
| `VehicleSelection.FromResponse` | js/vehicle-selection.js:36-39 | a non-2xx status is an HTTP error carrying that status; a 2xx status with a parsed body yields that inventory; a 2xx status with an unparseable body is exactly a transport error |
| `VehicleSelection.ResponseDecidesDisplay` | js/vehicle-selection.js:36-52 | a response ends in the error display iff its status is not 2xx or its body does not parse; otherwise the grid shows and the inventory is the parsed body |
| `VehicleSelection.Construct` | js/vehicle-selection.js:4-21 | the stored selection is taken only when truthy; the inventory starts empty and the filter at "all"; storage, display regions, grid, filter buttons and continue button stay as the store and markup have them |
| `VehicleSelection.ConstructInSync` | js/vehicle-selection.js:4-21 | a freshly constructed screen is in sync, since its grid holds no cards yet |
| `VehicleSelection.ScreenNeverMarksTwoIds` | js/vehicle-selection.js:4-115 | from construction on, whatever loads, filter clicks and selections follow, the grid never marks cards with two different ids |
| `VehicleSelection.RenderVehicles` | js/vehicle-selection.js:54-75 | the grid holds one card per visible record, marked iff its id is the selection; inventory, selection and filter are unchanged |
| `VehicleSelection.LoadVehicles` | js/vehicle-selection.js:28-52 | a missing URL, a non-ok status or a transport failure shows the error display and leaves inventory and grid as they were; an empty inventory shows the empty notice in the grid display; a non-empty one shows the rendered cards in the grid display; selection, filter, buttons and store are untouched |
| `VehicleSelection.UpdateActiveFilter` | js/vehicle-selection.js:117-123 | a filter button is active iff its `data-filter` equals the current filter; nothing else changes |
| `VehicleSelection.ApplyKeepsButtonsReflectFilter` | js/vehicle-selection.js:79-83 | a filter click makes each button active iff its `data-filter` is the current filter; loads and selections keep that |
| `VehicleSelection.RunKeepsButtonsReflectFilter` | js/vehicle-selection.js:117-123 | once established, the active filter button is the current filter's through any sequence of loads, filter clicks and selections |
| `VehicleSelection.ClickFilter` | js/vehicle-selection.js:79-83 | after a filter click the filter is set; every button keeps its place and `data-filter` and is active iff that is the new filter; the grid is re-rendered; nothing else changes, display mode included |
| `VehicleSelection.SelectVehicle` | js/vehicle-selection.js:101-115 | the selection and the stored `selectedVehicle` become the id and no other key changes; each button is marked iff its id equals the id, so at most one id is marked; continue is enabled; inventory, filter and display are unchanged |
| `VehicleSelection.ContinueNavigates` | js/vehicle-selection.js:94-98 | continue navigates only when the button is enabled and the selection is a non-empty id |
| `VehicleSelection.ApplyKeepsInSync` | js/vehicle-selection.js:101-109 | a load, a filter click or a selection keeps the grid equal to a fresh render of the state |
| `VehicleSelection.RunKeepsInSync` | js/vehicle-selection.js:54-115 | across any sequence of loads, filter clicks and selections the grid stays equal to a fresh render of the state |
| `VehicleSelection.RunMarksAtMostOneId` | js/vehicle-selection.js:101-109 | whatever sequence of events the screen sees, its grid never marks cards with two different ids |
| `VehicleSelection.SelectionSurvivesReload` | js/vehicle-selection.js:6 | a non-empty selection is persisted: a screen constructed later from the same store starts with it selected |
| `VehicleSelection.ContinueAfterSelect` | js/vehicle-selection.js:94-114 | after selecting an id, continue navigates iff the id is non-empty |
| `VehicleSelection.LoadNeverEnablesContinue` | js/vehicle-selection.js:23-52 | constructing the screen and loading the inventory leave the continue button as the markup had it |
| `VehicleSelection.FilterToEmptyCategory` | js/vehicle-selection.js:79-83 | filtering by a category no record has gives an empty card list, not the empty-inventory notice, and keeps the display mode |
| `VehicleSelection.RetryForgetsFailure` | js/vehicle-selection.js:92 | a retry after a failed load ends exactly where a first load with the same outcome would |
| `VehicleSelection.ExampleLoad` | js/vehicle-selection.js:41-46 | with the two-record inventory and nothing stored, both cards render and neither is marked |
| `VehicleSelection.ExampleFilter` | js/vehicle-selection.js:55-57 | the "suv" filter over the two records renders exactly card "A" |
| `VehicleSelection.ExampleSelect` | js/vehicle-selection.js:101-114 | selecting "B" and then filtering by "all" marks only "B" and lets continue navigate |
| `PageNames.PageNameAsWritten` | js/foundation.js:146-154 | the label lookup as written: the own label for a known page, the inherited built-in for an Object.prototype key, "Page" otherwise |
| `PageNames.PageName` | js/foundation.js:146-154 | the intended label lookup: the label of each of the four known pages, and "Page" iff the page is not one of them |
| `PageNames.AsWrittenAgreesOffPrototype` | js/foundation.js:153 | the code as written and the intended lookup agree on every page name that is not an inherited Object.prototype property |
| `PageNames.InheritedKeyBypassesFallback` | js/foundation.js:153 | for the page "toString" the code as written yields a built-in function where "Page" was intended |
| `PageScripts.ScriptSrcInjective` | js/foundation.js:100 | different pages get different companion-script URLs |
| `PageScripts.FirstWithId` | js/foundation.js:94 | `getElementById` finds the first element carrying the id: it carries the id and none before it does |
| `PageScripts.RemoveFirstWithId` | js/foundation.js:94-95 | the first element with the id is removed, the result being the list with exactly that position cut out; with no such element nothing changes; every other element stays, in order |
| `PageScripts.AttachPageScript` | js/foundation.js:94-112 | after attaching, the new `js/<page>.js` element is last; with at most one page script before, exactly one is attached after and it is the new page's; other scripts are untouched |
| `Theme.ThemeName` | js/foundation.js:163 | the theme is "dark" iff the toggle is checked, else "light" |
| `Theme.SetupThemeToggle` | js/foundation.js:158-161 | a present toggle is checked iff the stored theme is exactly "dark"; an absent toggle stays absent |
| `Theme.OnToggleChange` | js/foundation.js:162-166 | after a change, the stored theme and the root attribute are equal, "dark" iff checked; other keys are untouched |
| `Theme.ToggleSurvivesReload` | js/foundation.js:161-164 | a toggle set up after a change shows the position that was chosen |
| `BookingSpa.GetCurrentPage` | js/foundation.js:117-125 | the page is the query's `page` value when non-empty, otherwise the default page, also on a parse error; it is never empty |
| `BookingSpa.UpdateBookingId` | js/foundation.js:19-38 | the `booking` query value takes precedence over the stored id; a truthy result is written back and mirrored on the document; otherwise storage and document are untouched |
| `BookingSpa.BookingIdPersists` | js/foundation.js:22-25 | a booking id from the query is recalled on a later visit without one |
| `BookingSpa.SetupTheme` | js/foundation.js:157-161 | the controller's toggle is checked iff the stored theme is "dark"; nothing else changes |
| `BookingSpa.ChangeTheme` | js/foundation.js:162-166 | with a toggle, a change stores and applies "dark" if checked and "light" otherwise, and touches no other key or field; with no toggle nothing happens |
| `BookingSpa.ShowErrorState` | js/foundation.js:136-144 | the error view's retry targets the page that failed |
| `BookingSpa.LoadPageScript` | js/foundation.js:91-114 | the page script is swapped into the single slot; `scriptsLoaded` gains the page only on `onload`; nothing else changes |
| `BookingSpa.LoadPage` | js/foundation.js:63-88 | a falsy page or the active page is a no-op; a fragment failure shows an error view retrying that page and changes nothing else; a success makes the page active, shows the fragment, attaches its script and pushes its history entry, whatever the script outcome |
| `BookingSpa.ReloadOfActivePageIsNoOp` | js/foundation.js:64 | once a page is loaded, loading it again changes nothing, whatever the outcomes |
| `BookingSpa.RetryAfterFailure` | js/foundation.js:84-87 | after a failure the page is still not active, so its retry is not swallowed by the guard and ends where a first attempt would |
| `BookingSpa.ScriptFailureStillNavigates` | js/foundation.js:102-111 | with a failed script the navigation completes exactly as with a loaded one; only `scriptsLoaded` differs |
| `BookingSpa.NavigationReplacesPageScript` | js/foundation.js:94-100 | after navigating from one active page to another, no page-script element loads the old page's script |
| `BookingSpa.HistoryEntryNamesPage` | js/foundation.js:82 | the history entry pushed for a page reads back through `getCurrentPage` as that page |
| `BookingSpa.PopState` | js/foundation.js:55-59 | a history entry without a truthy page does nothing; otherwise its page is loaded |
| `BookingSpa.LoadPageKeepsWellformed` | js/foundation.js:63-114 | a page load keeps the controller consistent: at most one page script, present iff a page is active and belonging to it; the active page is the last history entry; every loaded script's page is in the history |
| `BookingSpa.RunKeepsWellformed` | js/foundation.js:41-114 | any sequence of navigations, back/forward moves and theme changes keeps the controller consistent, so never more than one page script is attached |
| `BookingSpa.Boot` | js/foundation.js:11-16 | the first load is never skipped; on success the query's page becomes active with its fragment shown; on failure no page is active and the error view retries that page |
| `BookingSpa.StartUp` | js/foundation.js:4-14 | before the first load no page is active, the history is empty and no script has loaded; the toggle shows the stored theme; the booking id is the query's if truthy, else the stored one, written back and mirrored only when truthy; the container and root theme attribute are untouched |
| `BookingSpa.BootWellformed` | js/foundation.js:11-16 | starting from a document without a page script, the controller is consistent after start-up |

## Left out

- Network fetches, `response.text()` and `response.json()`: only their outcomes are modelled, as
  input datatypes.
- HTML template strings and `innerHTML` building: cards are `(Car ID, selected)` pairs. The
  container is a tagged view. The empty-inventory notice is a constant.
- DOM lookups and event-listener wiring. The model assumes every element the screen looks up
  exists. Without the grid element (`#vehicleList`) the constructor's `init` throws in
  `bindEvents` when it attaches the grid's click listener, before `loadVehicles` runs, so no
  screen comes up at all.
- `window.location.href` navigation and the `history.pushState` URL. History entries are page names.
  The round trip through the unescaped `?page=` URL is not modelled.
- The `#booking-id` badge text and the console warning shown when the badge is missing.
- Exceptions from `localStorage` and from `pushState`.
- Overlapping `loadPage` or `loadVehicles` calls. The code has no sequencing guard, so only
  sequential, fully resolved transitions are modelled.
- `console` logging. The loading view's caption is kept, but nothing is proved about it.
- `js/index.js` and `js/load-header.js` are not part of this model. They hold timer polling, a
  timed form-submit redirect and a dark/light flip on `body`.
- `VehicleSelection.LoadVehicles`: a 2xx body that parses as JSON but is not an array of records
  (`{}`, `null`, `[null]`) is not modelled. The code stores it as the inventory first and then
  throws on `.length`, `.filter`/`.map` or `vehicle["Car ID"]`, so it reaches the error display with
  the inventory overwritten. The model's error outcomes keep the old inventory, because a
  `seq<Vehicle>` cannot hold such a value.
- `BookingSpa.ShowErrorState`: the retry handler is built by pasting the page name into an inline
  `onclick` string. The model assumes the name survives that quoting. A name containing a quote
  character would not.
- `VehicleCards.MarkingAgreesWithRender`: the model assumes each Car ID reads back unchanged
  through the `data-id` attribute. The code pastes the Car ID into that attribute unescaped. An id
  such as `A&amp;B` reads back as `A&B`, so after a click a later render unmarks the card. An id
  containing `"` is cut at the quote, so a click can mark other cards. For such ids neither
  in-place marking agreeing with a re-render nor the grid staying in step with the state holds in
  the code (`VehicleSelection.RunKeepsInSync`).
- `VehicleCards.RenderCards`: `Car ID` is modelled as a string. A numeric `Car ID` from the JSON
  would never be strictly equal to the stored string selection, so its card would not be marked
  after a re-render.

## Findings

| source | as written | input that shows it | evidently intended | confidence | as-written member | corrected member |
|---|---|---|---|---|---|---|
| js/foundation.js:146-154 | `names[page] \|\| 'Page'` looks the page up in an object literal. Inherited Object.prototype properties such as `toString` are truthy, so they are returned instead of the fallback. | the query `?page=toString`: the fragment fetch fails and the error view's title is the source text of a built-in function | "Page" for every name that is not one of the four known pages | high, not executed | `PageNames.PageNameAsWritten` (counterexample `PageNames.InheritedKeyBypassesFallback`) | `PageNames.PageName`, used by the loading and error views |

=== FILE: booking_spa.dfy ===
/** The navigation controller (`BookingSPA`): page detection, booking-id
    persistence, the theme toggle and the page-loading routine that swaps a
    fragment into the app container, attaches the page's script and pushes
    a history entry. Fetch and script-load results are inputs; every
    transition is taken to run to completion before the next one starts. */
module BookingSpa {
  import opened Wrappers
  import opened Storage
  import opened PageNames
  import opened PageScripts
  import Theme

  /** The page shown when the query names none. */
  const DefaultPage := "vehicle-selection"

  /** The result of reading the location's query string: the `page`
      parameter (None when absent), or a parse failure. */
  datatype QueryParse = Unparseable | Query(page: Option<string>)

  /** `getCurrentPage`: the query's `page` value when it is non-empty,
      otherwise (absent, empty or unparseable) the default page. */
  function GetCurrentPage(q: QueryParse): (r: string)
    ensures r != ""
    ensures q.Query? && Truthy(q.page) ==> r == q.page.value
    ensures !(q.Query? && Truthy(q.page)) ==> r == DefaultPage
  {
    match q
    case Unparseable => DefaultPage
    case Query(page) => Or(page, Some(DefaultPage)).value
  }

  /** What the app container shows. */
  datatype View =
    | InitialView
    | Loading(caption: string)
    | Fragment(html: string)
    | ErrorView(title: string, retryPage: string)

  /** The fragment request: its text on a 2xx response, or a failure (non-2xx
      status, transport error or unreadable body alike). */
  datatype FragmentOutcome = FragmentOk(html: string) | FragmentFail

  /** Whether the page script fired `onload` or `onerror`. */
  datatype ScriptOutcome = ScriptOk | ScriptErr

  datatype Spa = Spa(
    currentPage: Option<string>,
    bookingId: Option<string>,
    scriptsLoaded: set<string>,
    scripts: seq<Script>,
    history: seq<string>,
    container: View,
    store: Store,
    bodyBookingId: Option<string>,
    toggle: Option<bool>,
    rootTheme: Option<string>)

  /** The constructor's fields, over the document as it stands. */
  function Fresh(scripts: seq<Script>, store: Store, toggle: Option<bool>): Spa {
    Spa(None, None, {}, scripts, [], InitialView, store, None, toggle, None)
  }

  /** `updateBookingId`: the `booking` query value wins over the stored id;
      a truthy result is written back and mirrored on the document, and
      otherwise storage and document are left alone. */
  function UpdateBookingId(s: Spa, bookingParam: Option<string>): (r: Spa)
    ensures Truthy(bookingParam) ==> r.bookingId == bookingParam
    ensures !Truthy(bookingParam) ==> r.bookingId == GetItem(s.store, BookingKey)
    ensures Truthy(r.bookingId) ==> GetItem(r.store, BookingKey) == r.bookingId && r.bodyBookingId == r.bookingId
    ensures !Truthy(r.bookingId) ==> r.store == s.store && r.bodyBookingId == s.bodyBookingId
    ensures forall k :: k != BookingKey ==> GetItem(r.store, k) == GetItem(s.store, k)
    ensures r == s.(bookingId := r.bookingId, store := r.store, bodyBookingId := r.bodyBookingId)
  {
    var id := Or(bookingParam, GetItem(s.store, BookingKey));
    if Truthy(id) then s.(bookingId := id, store := SetItem(s.store, BookingKey, id.value), bodyBookingId := id)
    else s.(bookingId := id)
  }

  /** A booking id that arrived in the query is recalled on a later visit
      whose query has none. */
  lemma BookingIdPersists(s: Spa, b: string, later: Spa)
    requires b != ""
    requires later.store == UpdateBookingId(s, Some(b)).store
    ensures UpdateBookingId(later, None).bookingId == Some(b)
  {
  }

  /** `setupThemeToggle` applied to the controller's toggle. */
  function SetupTheme(s: Spa): (r: Spa)
    ensures r.toggle.Some? <==> s.toggle.Some?
    ensures r.toggle.Some? ==> (r.toggle.value <==> GetItem(s.store, ThemeKey) == Some(Theme.Dark))
    ensures r == s.(toggle := r.toggle)
  {
    s.(toggle := Theme.SetupThemeToggle(s.toggle, s.store))
  }

  /** The user flips the toggle to `checked`; without a toggle there is no
      listener and nothing happens. */
  function ChangeTheme(s: Spa, checked: bool): (r: Spa)
    ensures s.toggle.None? ==> r == s
    ensures s.toggle.Some? ==>
              && r.toggle == Some(checked)
              && r.rootTheme.Some?
              && GetItem(r.store, ThemeKey) == r.rootTheme
              && (r.rootTheme.value == Theme.Dark <==> checked)
              && r.rootTheme == Some(Theme.ThemeName(checked))
              && (r.rootTheme == Some(Theme.Dark) || r.rootTheme == Some(Theme.Light))
    ensures forall k :: k != ThemeKey ==> GetItem(r.store, k) == GetItem(s.store, k)
    ensures r == s.(toggle := r.toggle, store := r.store, rootTheme := r.rootTheme)
  {
    if s.toggle.None? then s
    else
      var change := Theme.OnToggleChange(checked, s.store);
      s.(toggle := Some(checked), store := change.store, rootTheme := Some(change.rootTheme))
  }

  /** The guard of `loadPage`: a falsy page, or the page already active. */
  predicate Guarded(s: Spa, page: string) {
    page == "" || s.currentPage == Some(page)
  }

  /** `showLoadingState`: labelled with the page being left, not the one
      being loaded. */
  function ShowLoadingState(s: Spa): Spa {
    s.(container := Loading(PageName(s.currentPage)))
  }

  /** `showErrorState`: a failure view whose retry reloads the same page. */
  function ShowErrorState(s: Spa, page: string): (r: Spa)
    ensures r.container.ErrorView? && r.container.retryPage == page
    ensures r == s.(container := r.container)
  {
    s.(container := ErrorView(PageName(Some(page)), page))
  }

  /** `loadPageScript`: the previous page script is removed and the page's
      own is attached; the page counts as having its script loaded only when
      `onload` fired. Either way the step resolves. */
  function LoadPageScript(s: Spa, page: string, script: ScriptOutcome): (r: Spa)
    ensures r.scripts == AttachPageScript(s.scripts, page)
    ensures page in r.scriptsLoaded <==> page in s.scriptsLoaded || script == ScriptOk
    ensures r.scriptsLoaded - {page} == s.scriptsLoaded - {page}
    ensures r == s.(scripts := r.scripts, scriptsLoaded := r.scriptsLoaded)
  {
    s.(scripts := AttachPageScript(s.scripts, page),
       scriptsLoaded := if script == ScriptOk then s.scriptsLoaded + {page} else s.scriptsLoaded)
  }

  /** `loadPage`, run to completion against the fragment and script
      outcomes. */
  function LoadPage(s: Spa, page: string, fragment: FragmentOutcome, script: ScriptOutcome): (r: Spa)
    ensures Guarded(s, page) ==> r == s
    ensures !Guarded(s, page) && fragment.FragmentFail? ==>
              r == s.(container := ErrorView(PageName(Some(page)), page))
    ensures !Guarded(s, page) && fragment.FragmentOk? ==>
              && r.currentPage == Some(page)
              && r.container == Fragment(fragment.html)
              && r.history == s.history + [page]
              && r.scripts == AttachPageScript(s.scripts, page)
              && (page in r.scriptsLoaded <==> page in s.scriptsLoaded || script == ScriptOk)
              && r.scriptsLoaded - {page} == s.scriptsLoaded - {page}
    ensures r.bookingId == s.bookingId && r.store == s.store && r.bodyBookingId == s.bodyBookingId
    ensures r.toggle == s.toggle && r.rootTheme == s.rootTheme
  {
    if Guarded(s, page) then s
    else
      var loading := ShowLoadingState(s);
      match fragment
      case FragmentFail => ShowErrorState(loading, page)
      case FragmentOk(html) =>
        var injected := loading.(container := Fragment(html), currentPage := Some(page));
        var attached := LoadPageScript(injected, page, script);
        attached.(history := attached.history + [page])
  }

  /** Loading the active page again does nothing, whatever the outcomes. */
  lemma ReloadOfActivePageIsNoOp(s: Spa, page: string, html: string, so: ScriptOutcome,
                                 fragment: FragmentOutcome, script: ScriptOutcome)
    requires page != ""
    ensures var t := LoadPage(s, page, FragmentOk(html), so);
            LoadPage(t, page, fragment, script) == t
  {
  }

  /** A failed load is not fatal to the retry: the page is still not active,
      so retrying is not swallowed by the guard, and the retry ends exactly
      where a first attempt with the same outcomes would. */
  lemma RetryAfterFailure(s: Spa, page: string, fragment: FragmentOutcome, script: ScriptOutcome)
    requires !Guarded(s, page)
    ensures var failed := LoadPage(s, page, FragmentFail, script);
            && failed.container.retryPage == page
            && !Guarded(failed, failed.container.retryPage)
            && LoadPage(failed, failed.container.retryPage, fragment, script) == LoadPage(s, page, fragment, script)
  {
  }

  /** A missing page script does not stop navigation: with either script
      outcome the page becomes active, its fragment is shown and the history
      entry is pushed; only `scriptsLoaded` tells the two apart. */
  lemma ScriptFailureStillNavigates(s: Spa, page: string, html: string)
    requires !Guarded(s, page)
    ensures var ok := LoadPage(s, page, FragmentOk(html), ScriptOk);
            var err := LoadPage(s, page, FragmentOk(html), ScriptErr);
            && err == ok.(scriptsLoaded := s.scriptsLoaded)
            && page in ok.scriptsLoaded
            && err.history == s.history + [page]
  {
  }

  /** The `popstate` handler: a history entry without a truthy page does
      nothing; otherwise that page is loaded. */
  function PopState(s: Spa, entryPage: Option<string>, fragment: FragmentOutcome, script: ScriptOutcome): (r: Spa)
    ensures !Truthy(entryPage) ==> r == s
    ensures Truthy(entryPage) ==> r == LoadPage(s, entryPage.value, fragment, script)
  {
    if Truthy(entryPage) then LoadPage(s, entryPage.value, fragment, script) else s
  }

  /** Consistency of the controller between transitions: at most one page
      script is attached, there is one iff a page is active, and it is that
      page's; the active page is the latest history entry; every page whose
      script loaded is in the history. */
  predicate Wellformed(s: Spa) {
    && CountId(s.scripts, PageScriptId) <= 1
    && (CountId(s.scripts, PageScriptId) == 1 <==> s.currentPage.Some?)
    && (forall i | 0 <= i < |s.scripts| && s.scripts[i].id == PageScriptId ::
          s.currentPage.Some? && s.scripts[i].src == ScriptSrc(s.currentPage.value))
    && (s.currentPage.Some? ==>
          s.currentPage.value != "" && |s.history| > 0 && s.history[|s.history| - 1] == s.currentPage.value)
    && (forall p | p in s.scriptsLoaded :: p in s.history)
  }

  lemma LoadPageKeepsWellformed(s: Spa, page: string, fragment: FragmentOutcome, script: ScriptOutcome)
    requires Wellformed(s)
    ensures Wellformed(LoadPage(s, page, fragment, script))
  {
  }

  /** Navigating from an active page to another one leaves no element of the
      page-script slot loading the old page's script. */
  lemma NavigationReplacesPageScript(s: Spa, q: string, html: string, script: ScriptOutcome)
    requires Wellformed(s) && s.currentPage.Some? && q != s.currentPage.value && q != ""
    ensures var r := LoadPage(s, q, FragmentOk(html), script);
            forall i | 0 <= i < |r.scripts| && r.scripts[i].id == PageScriptId ::
              r.scripts[i].src != ScriptSrc(s.currentPage.value)
  {
    var p := s.currentPage.value;
    var r := LoadPage(s, q, FragmentOk(html), script);
    forall i | 0 <= i < |r.scripts| && r.scripts[i].id == PageScriptId
      ensures r.scripts[i].src != ScriptSrc(p)
    {
      assert r.scripts[i].src == ScriptSrc(q);
      if ScriptSrc(q) == ScriptSrc(p) {
        ScriptSrcInjective(q, p);
      }
    }
  }

  /** A history entry pushed for a page names it in a way `getCurrentPage`
      reads back: the entry is the page itself and never empty. */
  lemma HistoryEntryNamesPage(s: Spa, page: string, html: string, script: ScriptOutcome)
    requires !Guarded(s, page)
    ensures var r := LoadPage(s, page, FragmentOk(html), script);
            GetCurrentPage(Query(Some(r.history[|r.history| - 1]))) == page
  {
  }

  /** The events the controller reacts to after start-up. */
  datatype Step =
    | Navigate(page: string, fragment: FragmentOutcome, script: ScriptOutcome)
    | Back(entryPage: Option<string>, fragment: FragmentOutcome, script: ScriptOutcome)
    | ToggleTheme(checked: bool)

  function Apply(s: Spa, step: Step): Spa {
    match step
    case Navigate(page, fragment, script) => LoadPage(s, page, fragment, script)
    case Back(entryPage, fragment, script) => PopState(s, entryPage, fragment, script)
    case ToggleTheme(checked) => ChangeTheme(s, checked)
  }

  function Run(s: Spa, steps: seq<Step>): Spa
    decreases |steps|
  {
    if steps == [] then s else Run(Apply(s, steps[0]), steps[1..])
  }

  /** Any sequence of navigations, back/forward moves and theme changes
      keeps the controller consistent; in particular there is never more
      than one page script attached. */
  lemma {:induction false} RunKeepsWellformed(s: Spa, steps: seq<Step>)
    requires Wellformed(s)
    ensures Wellformed(Run(s, steps))
    ensures CountId(Run(s, steps).scripts, PageScriptId) <= 1
    decreases |steps|
  {
    if steps != [] {
      match steps[0] {
        case Navigate(page, fragment, script) => LoadPageKeepsWellformed(s, page, fragment, script);
        case Back(entryPage, fragment, script) =>
          if Truthy(entryPage) {
            LoadPageKeepsWellformed(s, entryPage.value, fragment, script);
          }
        case ToggleTheme(checked) =>
      }
      RunKeepsWellformed(Apply(s, steps[0]), steps[1..]);
    }
  }

  /** `init`: theme toggle, booking id, then the page the query names. The
      first load is never swallowed by the guard. */
  function Boot(scripts: seq<Script>, store: Store, toggle: Option<bool>, bookingParam: Option<string>,
                query: QueryParse, fragment: FragmentOutcome, script: ScriptOutcome): (r: Spa)
    ensures !Guarded(StartUp(scripts, store, toggle, bookingParam), GetCurrentPage(query))
    ensures fragment.FragmentOk? ==> r.currentPage == Some(GetCurrentPage(query)) && r.container == Fragment(fragment.html)
    ensures fragment.FragmentFail? ==>
              r.currentPage == None && r.container == ErrorView(PageName(Some(GetCurrentPage(query))), GetCurrentPage(query))
  {
    LoadPage(StartUp(scripts, store, toggle, bookingParam), GetCurrentPage(query), fragment, script)
  }

  /** The synchronous part of `init`, before the first page load. */
  function StartUp(scripts: seq<Script>, store: Store, toggle: Option<bool>, bookingParam: Option<string>): (r: Spa)
    ensures r.currentPage == None && r.history == [] && r.scripts == scripts && r.scriptsLoaded == {}
    ensures r.toggle == Theme.SetupThemeToggle(toggle, store)
    ensures Truthy(bookingParam) ==> r.bookingId == bookingParam
    ensures !Truthy(bookingParam) ==> r.bookingId == GetItem(store, BookingKey)
    ensures Truthy(r.bookingId) ==> GetItem(r.store, BookingKey) == r.bookingId && r.bodyBookingId == r.bookingId
    ensures !Truthy(r.bookingId) ==> r.store == store && r.bodyBookingId == None
    ensures forall k :: k != BookingKey ==> GetItem(r.store, k) == GetItem(store, k)
    ensures r.container == InitialView && r.rootTheme == None
  {
    UpdateBookingId(SetupTheme(Fresh(scripts, store, toggle)), bookingParam)
  }

  /** Starting from a document without a page script, the controller is
      consistent after start-up and stays so. */
  lemma BootWellformed(scripts: seq<Script>, store: Store, toggle: Option<bool>, bookingParam: Option<string>,
                       query: QueryParse, fragment: FragmentOutcome, script: ScriptOutcome)
    requires CountId(scripts, PageScriptId) == 0
    ensures Wellformed(Boot(scripts, store, toggle, bookingParam, query, fragment, script))
  {
  }
}

=== FILE: page_names.dfy ===
/** `getPageName`: the human label of a page, used in the loading and error
    views. The lookup goes through a plain object literal, so any key that
    is not one of its own properties falls through to Object.prototype
    before the `|| 'Page'` fallback is reached. */
module PageNames {
  import opened Wrappers

  /** The four known pages and their labels. */
  const Labels: map<string, string> := map[
    "vehicle-selection" := "Vehicle Selection",
    "extras" := "Extra Services",
    "details-payment" := "Payment",
    "thankyou" := "Confirmation"]

  /** Property names every object literal inherits from Object.prototype;
      each one reads as a function, or as an object for `__proto__`. */
  const ObjectPrototypeMembers: set<string> := {
    "constructor", "hasOwnProperty", "isPrototypeOf", "propertyIsEnumerable",
    "toLocaleString", "toString", "valueOf", "__proto__",
    "__defineGetter__", "__defineSetter__", "__lookupGetter__", "__lookupSetter__"}

  /** The value a property read yields: a string, `undefined`, or an
      inherited built-in (a function or object, always truthy). */
  datatype JsValue = Str(s: string) | Undefined | BuiltIn(member: string)

  predicate JsTruthy(v: JsValue) {
    match v
    case Str(s) => s != ""
    case Undefined => false
    case BuiltIn(_) => true
  }

  /** The property key a page value becomes: `null` reads the key "null". */
  function KeyOf(page: Option<string>): string {
    match page
    case Some(p) => p
    case None => "null"
  }

  /** `names[page] || 'Page'` as written, with JavaScript's property lookup. */
  function PageNameAsWritten(page: Option<string>): (r: JsValue)
    ensures KeyOf(page) in Labels ==> r == Str(Labels[KeyOf(page)])
    ensures KeyOf(page) !in Labels && KeyOf(page) in ObjectPrototypeMembers ==> r == BuiltIn(KeyOf(page))
    ensures KeyOf(page) !in Labels && KeyOf(page) !in ObjectPrototypeMembers ==> r == Str("Page")
  {
    var key := KeyOf(page);
    var found := if key in Labels then Str(Labels[key])
                 else if key in ObjectPrototypeMembers then BuiltIn(key)
                 else Undefined;
    if JsTruthy(found) then found else Str("Page")
  }

  /** The label lookup as intended: a known page's label, "Page" for
      anything else, including a missing page. */
  function PageName(page: Option<string>): (r: string)
    ensures page.Some? && page.value in Labels ==> r == Labels[page.value]
    ensures r == "Page" <==> !(page.Some? && page.value in Labels)
    ensures r != ""
  {
    if page.Some? && page.value in Labels then Labels[page.value] else "Page"
  }

  /** The code as written and the intended lookup agree on every page whose
      name is not an inherited Object.prototype property. */
  lemma AsWrittenAgreesOffPrototype(page: Option<string>)
    requires KeyOf(page) !in ObjectPrototypeMembers
    ensures PageNameAsWritten(page) == Str(PageName(page))
  {
  }

  /** They disagree on `?page=toString`: the error view's title becomes the
      source text of a built-in function instead of "Page". */
  lemma InheritedKeyBypassesFallback()
    ensures PageNameAsWritten(Some("toString")) == BuiltIn("toString")
    ensures PageName(Some("toString")) == "Page"
  {
  }
}

=== FILE: page_scripts.dfy ===
/** The document's script elements, in tree order, and the single
    page-script slot `loadPageScript` manages: the previous element with the
    fixed id is removed before the new one is appended. */
module PageScripts {

  /** A script element: its `id` attribute and its `src`. */
  datatype Script = Script(id: string, src: string)

  /** The fixed id the page script is attached under. */
  const PageScriptId := "page-script"

  /** The companion script of a page: `js/<page>.js`. */
  function ScriptSrc(page: string): string {
    "js/" + page + ".js"
  }

  /** Different pages have different companion scripts. */
  lemma ScriptSrcInjective(p: string, q: string)
    requires ScriptSrc(p) == ScriptSrc(q)
    ensures p == q
  {
    var a := ScriptSrc(p);
    assert |p| == |q|;
    assert p == a[3..3 + |p|];
    assert q == a[3..3 + |q|];
  }

  /** How many elements carry the id. */
  function CountId(ss: seq<Script>, id: string): nat {
    if ss == [] then 0 else (if ss[0].id == id then 1 else 0) + CountId(ss[1..], id)
  }

  /** The elements that do not carry the id, in order. */
  function OthersOf(ss: seq<Script>, id: string): seq<Script> {
    if ss == [] then [] else (if ss[0].id == id then [] else [ss[0]]) + OthersOf(ss[1..], id)
  }

  /** No element carries the id exactly when the count is zero. */
  lemma {:induction false} CountZero(ss: seq<Script>, id: string)
    ensures CountId(ss, id) == 0 <==> forall i | 0 <= i < |ss| :: ss[i].id != id
  {
    if ss != [] {
      CountZero(ss[1..], id);
      assert forall i | 1 <= i < |ss| :: ss[i] == ss[1..][i - 1];
    }
  }

  lemma {:induction false} CountAppend(a: seq<Script>, b: seq<Script>, id: string)
    ensures CountId(a + b, id) == CountId(a, id) + CountId(b, id)
    ensures OthersOf(a + b, id) == OthersOf(a, id) + OthersOf(b, id)
  {
    if a != [] {
      CountAppend(a[1..], b, id);
      assert (a + b)[1..] == a[1..] + b;
    } else {
      assert a + b == b;
    }
  }

  /** `getElementById`: the position of the first element carrying the id,
      in tree order. */
  function FirstWithId(ss: seq<Script>, id: string): (k: nat)
    requires CountId(ss, id) > 0
    ensures k < |ss| && ss[k].id == id
    ensures forall j | 0 <= j < k :: ss[j].id != id
  {
    if ss[0].id == id then 0
    else
      var k := FirstWithId(ss[1..], id);
      assert forall j | 1 <= j < k + 1 :: ss[j] == ss[1..][j - 1];
      k + 1
  }

  /** `getElementById(id).remove()`: drops the first element carrying the id,
      if there is one, and keeps every other element in order. */
  function RemoveFirstWithId(ss: seq<Script>, id: string): (r: seq<Script>)
    ensures CountId(ss, id) == 0 ==> r == ss
    ensures CountId(ss, id) > 0 ==>
              var k := FirstWithId(ss, id);
              r == ss[..k] + ss[k + 1..]
    ensures CountId(r, id) == if CountId(ss, id) == 0 then 0 else CountId(ss, id) - 1
    ensures OthersOf(r, id) == OthersOf(ss, id)
    ensures |r| == if CountId(ss, id) == 0 then |ss| else |ss| - 1
  {
    if ss == [] then []
    else if ss[0].id == id then ss[1..]
    else
      var rest := RemoveFirstWithId(ss[1..], id);
      assert ([ss[0]] + rest)[1..] == rest;
      assert CountId(ss, id) > 0 ==>
               var k := FirstWithId(ss, id);
               [ss[0]] + rest == ss[..k] + ss[k + 1..] by {
        if CountId(ss, id) > 0 {
          var k := FirstWithId(ss[1..], id);
          assert FirstWithId(ss, id) == k + 1;
          assert ss[..k + 1] == [ss[0]] + ss[1..][..k];
          assert ss[k + 2..] == ss[1..][k + 1..];
        }
      }
      [ss[0]] + rest
  }

  /** `loadPageScript`'s DOM step: with at most one page script attached
      before, exactly one is attached after, it is last and it loads the
      page's companion script; every other script element is untouched. */
  function AttachPageScript(ss: seq<Script>, page: string): (r: seq<Script>)
    ensures CountId(r, PageScriptId) == (if CountId(ss, PageScriptId) == 0 then 1 else CountId(ss, PageScriptId))
    ensures |r| > 0 && r[|r| - 1] == Script(PageScriptId, ScriptSrc(page))
    ensures OthersOf(r, PageScriptId) == OthersOf(ss, PageScriptId)
    ensures CountId(ss, PageScriptId) <= 1 ==>
              forall i | 0 <= i < |r| && r[i].id == PageScriptId :: r[i].src == ScriptSrc(page)
  {
    var kept := RemoveFirstWithId(ss, PageScriptId);
    var added := Script(PageScriptId, ScriptSrc(page));
    CountAppend(kept, [added], PageScriptId);
    assert CountId([added], PageScriptId) == 1 by {
      assert [added][1..] == [];
    }
    assert OthersOf([added], PageScriptId) == [] by {
      assert [added][1..] == [];
    }
    CountZero(kept, PageScriptId);
    kept + [added]
  }
}

=== FILE: storage.dfy ===
/** The browser's persistent key/value preference store, as a map from key
    to string value, and the keys the booking flow uses. */
module Storage {
  import opened Wrappers

  type Store = map<string, string>

  const ThemeKey := "theme"
  const BookingKey := "bookingId"
  const SelectedVehicleKey := "selectedVehicle"

  /** `getItem`: the stored value, or null when the key was never written. */
  function GetItem(st: Store, key: string): (r: Option<string>)
    ensures r.Some? <==> key in st
    ensures r.Some? ==> r.value == st[key]
  {
    if key in st then Some(st[key]) else None
  }

  /** `setItem`: the key now reads back the value; every other key is untouched. */
  function SetItem(st: Store, key: string, value: string): (r: Store)
    ensures GetItem(r, key) == Some(value)
    ensures forall k :: k != key ==> GetItem(r, k) == GetItem(st, k)
    ensures r.Keys == st.Keys + {key}
  {
    st[key := value]
  }
}

=== FILE: subsequences.dfy ===
/** Order-preserving subsequences. */
module Subsequences {

  /** `a` can be obtained from `b` by deleting elements, keeping the order of
      the rest. */
  predicate IsSubsequence<T(==)>(a: seq<T>, b: seq<T>)
    decreases |b|
  {
    && |a| <= |b|
    && (|a| == 0
        || (a[0] == b[0] && IsSubsequence(a[1..], b[1..]))
        || IsSubsequence(a, b[1..]))
  }

  /** Every sequence is a subsequence of itself. */
  lemma {:induction false} SubsequenceReflexive<T>(a: seq<T>)
    ensures IsSubsequence(a, a)
    decreases |a|
  {
    if |a| > 0 {
      SubsequenceReflexive(a[1..]);
    }
  }
}

=== FILE: theme.dfy ===
/** The light/dark toggle of the navigation controller (`setupThemeToggle`):
    its checked state is read from the stored theme once, and each change
    writes the stored theme and the root `data-theme` attribute. */
module Theme {
  import opened Wrappers
  import opened Storage

  const Dark := "dark"
  const Light := "light"

  /** The theme a toggle position stands for. */
  function ThemeName(checked: bool): (r: string)
    ensures r == Dark <==> checked
    ensures r == Dark || r == Light
  {
    if checked then Dark else Light
  }

  /** Setup: a present toggle becomes checked iff the stored theme is
      exactly "dark"; an absent toggle stays absent. The root attribute is
      not touched here. */
  function SetupThemeToggle(toggle: Option<bool>, st: Store): (r: Option<bool>)
    ensures r.Some? <==> toggle.Some?
    ensures r.Some? ==> (r.value <==> GetItem(st, ThemeKey) == Some(Dark))
  {
    match toggle
    case None => None
    case Some(_) => Some(GetItem(st, ThemeKey) == Some(Dark))
  }

  /** What a change of the toggle leaves behind. */
  datatype ThemeChange = ThemeChange(store: Store, rootTheme: string)

  /** The change listener: the stored theme and the root attribute both
      become "dark" iff the toggle is checked, else "light". */
  function OnToggleChange(checked: bool, st: Store): (r: ThemeChange)
    ensures GetItem(r.store, ThemeKey) == Some(r.rootTheme)
    ensures r.rootTheme == Dark <==> checked
    ensures r.rootTheme == Dark || r.rootTheme == Light
    ensures forall k :: k != ThemeKey ==> GetItem(r.store, k) == GetItem(st, k)
  {
    var theme := ThemeName(checked);
    ThemeChange(SetItem(st, ThemeKey, theme), theme)
  }

  /** A toggle set up after a change shows the position that was chosen. */
  lemma ToggleSurvivesReload(checked: bool, st: Store, markup: bool)
    ensures SetupThemeToggle(Some(markup), OnToggleChange(checked, st).store) == Some(checked)
  {
  }
}

=== FILE: vehicle_cards.dfy ===
/** The vehicle-selection screen's view of the inventory: the category
    filter, and the select buttons rendered for the cards that pass it.
    Card markup itself is reduced to each card's id and whether its select
    button shows the selected state. */
module VehicleCards {
  import opened Wrappers
  import opened Subsequences

  /** One inventory record, each field kept as the text a card shows.
      `vtype` is None when the record carries no `Type`. */
  datatype Vehicle = Vehicle(
    carId: string,
    name: string,
    model: string,
    vtype: Option<string>,
    dailyRate: string,
    seats: string,
    transmission: string)

  /** The filter value that shows every vehicle. */
  const AllFilter := "all"

  /** A record passes a category filter iff its `Type` is exactly that category;
      a record without a `Type` never does. */
  predicate Matches(v: Vehicle, filter: string) {
    v.vtype == Some(filter)
  }

  /** `Array.prototype.filter` with the category test. */
  function FilterByType(vs: seq<Vehicle>, filter: string): (r: seq<Vehicle>)
    ensures |r| <= |vs|
    ensures forall i | 0 <= i < |r| :: Matches(r[i], filter)
  {
    if vs == [] then []
    else (if Matches(vs[0], filter) then [vs[0]] else []) + FilterByType(vs[1..], filter)
  }

  /** The filtered list keeps the inventory's order. */
  lemma {:induction false} FilterIsSubsequence(vs: seq<Vehicle>, filter: string)
    ensures IsSubsequence(FilterByType(vs, filter), vs)
  {
    if vs != [] {
      FilterIsSubsequence(vs[1..], filter);
      var r := FilterByType(vs, filter);
      if Matches(vs[0], filter) {
        assert r[0] == vs[0] && r[1..] == FilterByType(vs[1..], filter);
      } else {
        assert r == FilterByType(vs[1..], filter);
      }
    }
  }

  /** No matching record is dropped and no other record is kept: each record
      occurs in the filtered list exactly as often as in the inventory when it
      matches, and never otherwise. */
  lemma {:induction false} FilterCounts(vs: seq<Vehicle>, filter: string)
    ensures forall v :: multiset(FilterByType(vs, filter))[v]
                        == if Matches(v, filter) then multiset(vs)[v] else 0
  {
    if vs != [] {
      FilterCounts(vs[1..], filter);
      assert vs == [vs[0]] + vs[1..];
      assert multiset(vs) == multiset([vs[0]]) + multiset(vs[1..]);
    }
  }

  /** The records `renderVehicles` shows: all of them in order under the "all"
      filter, otherwise exactly the matching ones, in order. */
  function Visible(vs: seq<Vehicle>, filter: string): (r: seq<Vehicle>)
    ensures filter == AllFilter ==> r == vs
    ensures IsSubsequence(r, vs)
    ensures filter != AllFilter ==> forall i | 0 <= i < |r| :: Matches(r[i], filter)
    ensures forall v :: multiset(r)[v]
                        == if filter == AllFilter || Matches(v, filter) then multiset(vs)[v] else 0
  {
    if filter == AllFilter then
      SubsequenceReflexive(vs);
      vs
    else
      FilterIsSubsequence(vs, filter);
      FilterCounts(vs, filter);
      FilterByType(vs, filter)
  }

  /** A rendered card: the `data-id` of its select button and whether that
      button shows the selected state (`aria-selected`, "✓ Selected"). */
  datatype Card = Card(carId: string, selected: bool)

  /** The cards `renderVehicles` produces for the visible records, marking a
      card iff the current selection is strictly equal to its `Car ID`. */
  function RenderCards(vs: seq<Vehicle>, selection: Option<string>): (r: seq<Card>)
    ensures |r| == |vs|
    ensures forall i | 0 <= i < |r| ::
              r[i].carId == vs[i].carId && (r[i].selected <==> selection == Some(vs[i].carId))
  {
    seq(|vs|, i requires 0 <= i < |vs| => Card(vs[i].carId, selection == Some(vs[i].carId)))
  }

  /** The pass `selectVehicle` makes over the existing select buttons: each
      one is marked iff its `data-id` equals the chosen id. */
  function MarkSelection(cards: seq<Card>, id: string): (r: seq<Card>)
    ensures |r| == |cards|
    ensures forall i | 0 <= i < |r| :: r[i].carId == cards[i].carId && (r[i].selected <==> cards[i].carId == id)
  {
    seq(|cards|, i requires 0 <= i < |cards| => cards[i].(selected := cards[i].carId == id))
  }

  /** Marking buttons in place yields exactly what a fresh render with the new
      selection would, whatever the previous selection was. */
  lemma MarkingAgreesWithRender(vs: seq<Vehicle>, previous: Option<string>, id: string)
    ensures MarkSelection(RenderCards(vs, previous), id) == RenderCards(vs, Some(id))
  {
  }

  /** All marked cards carry one and the same id. */
  predicate AtMostOneIdSelected(cards: seq<Card>) {
    forall i, j | 0 <= i < |cards| && 0 <= j < |cards| && cards[i].selected && cards[j].selected ::
      cards[i].carId == cards[j].carId
  }

  /** However the selection stands, a render never marks two different ids. */
  lemma RenderMarksAtMostOneId(vs: seq<Vehicle>, selection: Option<string>)
    ensures AtMostOneIdSelected(RenderCards(vs, selection))
  {
  }
}

=== FILE: vehicle_selection.dfy ===
/** The vehicle-selection screen (`VehicleSelection`): the inventory load,
    the category filter buttons, selection and the continue button, as pure
    transitions over an immutable screen record. The inventory fetch is an
    input outcome; display regions are visibility flags. */
module VehicleSelection {
  import opened Wrappers
  import opened Storage
  import opened VehicleCards

  /** Which of the three display regions is meant to be showing. */
  datatype Mode = LoadingMode | GridMode | ErrorMode

  /** The `display` of the loading indicator, the vehicle grid and the error
      panel, each visible or hidden. */
  datatype Visibility = Visibility(loading: bool, grid: bool, error: bool)

  predicate ExactlyOneVisible(v: Visibility) {
    (if v.loading then 1 else 0) + (if v.grid then 1 else 0) + (if v.error then 1 else 0) == 1
  }

  /** The mode a visibility pattern displays, if exactly one region is visible. */
  function ModeOf(v: Visibility): (r: Option<Mode>)
    ensures r.Some? <==> ExactlyOneVisible(v)
  {
    if v == Visibility(true, false, false) then Some(LoadingMode)
    else if v == Visibility(false, true, false) then Some(GridMode)
    else if v == Visibility(false, false, true) then Some(ErrorMode)
    else None
  }

  /** `showLoading`, `showGrid`, `showError`: each leaves exactly its own
      region visible. */
  function Show(m: Mode): (r: Visibility)
    ensures r.loading <==> m == LoadingMode
    ensures r.grid <==> m == GridMode
    ensures r.error <==> m == ErrorMode
    ensures ExactlyOneVisible(r)
    ensures ModeOf(r) == Some(m)
  {
    match m
    case LoadingMode => Visibility(true, false, false)
    case GridMode => Visibility(false, true, false)
    case ErrorMode => Visibility(false, false, true)
  }

  /** What the grid element holds: the page markup's initial content, the
      rendered cards, or the "No vehicles available" notice. */
  datatype GridContent = InitialContent | Cards(cards: seq<Card>) | EmptyNotice

  /** A category filter button: its `data-filter` and whether it is shown
      pressed/active. */
  datatype FilterButton = FilterButton(filter: string, active: bool)

  /** The state the page fragment's markup starts in, before any script runs. */
  datatype Markup = Markup(filterButtons: seq<FilterButton>, shown: Visibility, continueEnabled: bool)

  datatype Screen = Screen(
    selectedVehicle: Option<string>,
    vehicles: seq<Vehicle>,
    currentFilter: string,
    grid: GridContent,
    shown: Visibility,
    continueEnabled: bool,
    filterButtons: seq<FilterButton>,
    store: Store)

  /** The result of the inventory request. `TransportError` also stands for a
      response body that is not valid JSON, which rejects the same way. */
  datatype InventoryOutcome =
    | MissingConfig
    | HttpError(status: int)
    | TransportError
    | Ok(inventory: seq<Vehicle>)

  /** `response.ok`: a status in the 200-299 range. */
  predicate IsOkStatus(status: int) {
    200 <= status <= 299
  }

  /** Classifies a response to the inventory request; `body` is None when
      the body does not parse. */
  function FromResponse(status: int, body: Option<seq<Vehicle>>): (r: InventoryOutcome)
    ensures r.HttpError? <==> !IsOkStatus(status)
    ensures r.Ok? <==> IsOkStatus(status) && body.Some?
    ensures r.Ok? ==> r.inventory == body.value
    ensures IsOkStatus(status) && body.None? ==> r == TransportError
    ensures r.HttpError? ==> r.status == status
  {
    if !IsOkStatus(status) then HttpError(status)
    else if body.None? then TransportError
    else Ok(body.value)
  }

  /** A response to the inventory request ends in the error display iff its
      status is not 2xx or its body does not parse; otherwise the grid shows
      and the inventory is the parsed body. */
  lemma ResponseDecidesDisplay(s: Screen, status: int, body: Option<seq<Vehicle>>)
    ensures var r := LoadVehicles(s, FromResponse(status, body));
            && (ModeOf(r.shown) == Some(ErrorMode) <==> !IsOkStatus(status) || body.None?)
            && (ModeOf(r.shown) == Some(GridMode) <==> IsOkStatus(status) && body.Some?)
            && (IsOkStatus(status) && body.Some? ==> r.vehicles == body.value)
  {
  }

  /** The constructor's state: the stored selection if it is truthy, an empty
      inventory and the "all" filter; the page markup as it stands. */
  function Construct(store: Store, markup: Markup): (r: Screen)
    ensures Truthy(GetItem(store, SelectedVehicleKey)) ==> r.selectedVehicle == GetItem(store, SelectedVehicleKey)
    ensures !Truthy(GetItem(store, SelectedVehicleKey)) ==> r.selectedVehicle == None
    ensures r.vehicles == [] && r.currentFilter == AllFilter
    ensures r.continueEnabled == markup.continueEnabled && r.filterButtons == markup.filterButtons
    ensures r.store == store && r.shown == markup.shown && r.grid == InitialContent
  {
    Screen(Or(GetItem(store, SelectedVehicleKey), None), [], AllFilter,
           InitialContent, markup.shown, markup.continueEnabled, markup.filterButtons, store)
  }

  /** The card list `renderVehicles` produces for the screen's state. */
  function Render(s: Screen): seq<Card> {
    RenderCards(Visible(s.vehicles, s.currentFilter), s.selectedVehicle)
  }

  /** `renderVehicles`: replaces the grid with the cards of the visible
      records; it changes nothing else. */
  function RenderVehicles(s: Screen): (r: Screen)
    ensures r.grid.Cards?
    ensures |r.grid.cards| == |Visible(s.vehicles, s.currentFilter)|
    ensures forall i | 0 <= i < |r.grid.cards| ::
              && r.grid.cards[i].carId == Visible(s.vehicles, s.currentFilter)[i].carId
              && (r.grid.cards[i].selected <==> s.selectedVehicle == Some(r.grid.cards[i].carId))
    ensures r == s.(grid := r.grid)
  {
    s.(grid := Cards(Render(s)))
  }

  /** `loadVehicles`, run to completion against one outcome of the request. */
  function LoadVehicles(s: Screen, outcome: InventoryOutcome): (r: Screen)
    ensures r.selectedVehicle == s.selectedVehicle && r.currentFilter == s.currentFilter
    ensures r.continueEnabled == s.continueEnabled && r.filterButtons == s.filterButtons
    ensures r.store == s.store
    ensures !outcome.Ok? ==> ModeOf(r.shown) == Some(ErrorMode) && r.vehicles == s.vehicles && r.grid == s.grid
    ensures outcome.Ok? ==> ModeOf(r.shown) == Some(GridMode) && r.vehicles == outcome.inventory
    ensures outcome.Ok? && outcome.inventory == [] ==> r.grid == EmptyNotice
    ensures outcome.Ok? && outcome.inventory != [] ==> r.grid == Cards(Render(r))
  {
    var loading := s.(shown := Show(LoadingMode));
    match outcome
    case Ok(inventory) =>
      var fetched := loading.(vehicles := inventory);
      if |inventory| == 0 then fetched.(grid := EmptyNotice, shown := Show(GridMode))
      else RenderVehicles(fetched).(shown := Show(GridMode))
    case _ => loading.(shown := Show(ErrorMode))
  }

  /** `updateActiveFilter`: every filter button is shown active iff its
      `data-filter` equals the current filter; the buttons themselves and
      everything else stay as they were. */
  function UpdateActiveFilter(s: Screen): (r: Screen)
    ensures |r.filterButtons| == |s.filterButtons|
    ensures forall i | 0 <= i < |r.filterButtons| ::
              && r.filterButtons[i].filter == s.filterButtons[i].filter
              && (r.filterButtons[i].active <==> r.filterButtons[i].filter == s.currentFilter)
    ensures r == s.(filterButtons := r.filterButtons)
  {
    var buttons := seq(|s.filterButtons|, i requires 0 <= i < |s.filterButtons| =>
                         s.filterButtons[i].(active := s.filterButtons[i].filter == s.currentFilter));
    s.(filterButtons := buttons)
  }

  /** The click handler of a filter button: set the filter, mark the
      buttons, re-render. The display mode is left alone. */
  function ClickFilter(s: Screen, filter: string): (r: Screen)
    ensures r.currentFilter == filter
    ensures r.grid == Cards(Render(r))
    ensures |r.filterButtons| == |s.filterButtons|
    ensures forall i | 0 <= i < |r.filterButtons| ::
              && r.filterButtons[i].filter == s.filterButtons[i].filter
              && (r.filterButtons[i].active <==> r.filterButtons[i].filter == filter)
    ensures r == s.(currentFilter := filter, filterButtons := r.filterButtons, grid := r.grid)
    ensures r.shown == s.shown && r.vehicles == s.vehicles && r.selectedVehicle == s.selectedVehicle
    ensures r.continueEnabled == s.continueEnabled && r.store == s.store
  {
    RenderVehicles(UpdateActiveFilter(s.(currentFilter := filter)))
  }

  /** `selectVehicle`: record and persist the id, mark the select buttons
      whose `data-id` equals it and no others, enable continue. */
  function SelectVehicle(s: Screen, id: string): (r: Screen)
    ensures r.selectedVehicle == Some(id)
    ensures GetItem(r.store, SelectedVehicleKey) == Some(id)
    ensures forall k :: k != SelectedVehicleKey ==> GetItem(r.store, k) == GetItem(s.store, k)
    ensures r.continueEnabled
    ensures r.grid.Cards? <==> s.grid.Cards?
    ensures r.grid.Cards? ==>
              && |r.grid.cards| == |s.grid.cards|
              && forall i | 0 <= i < |r.grid.cards| ::
                   r.grid.cards[i].carId == s.grid.cards[i].carId && (r.grid.cards[i].selected <==> r.grid.cards[i].carId == id)
    ensures !r.grid.Cards? ==> r.grid == s.grid
    ensures r.grid.Cards? ==> AtMostOneIdSelected(r.grid.cards)
    ensures r.vehicles == s.vehicles && r.currentFilter == s.currentFilter && r.shown == s.shown
    ensures r.filterButtons == s.filterButtons
  {
    var grid := match s.grid
                case Cards(cards) => Cards(MarkSelection(cards, id))
                case other => other;
    s.(selectedVehicle := Some(id), store := SetItem(s.store, SelectedVehicleKey, id),
       grid := grid, continueEnabled := true)
  }

  /** The continue button's click: a disabled button delivers no click, and
      the handler navigates to the extras page only for a truthy selection. */
  function ContinueNavigates(s: Screen): (r: bool)
    ensures r ==> s.continueEnabled && s.selectedVehicle.Some? && s.selectedVehicle.value != ""
  {
    s.continueEnabled && Truthy(s.selectedVehicle)
  }

  /** The grid, when it shows cards, shows exactly what a fresh render of
      the current state would. */
  predicate InSync(s: Screen) {
    s.grid.Cards? ==> s.grid.cards == Render(s)
  }

  /** The user and network events the screen reacts to. */
  datatype Event =
    | Loaded(outcome: InventoryOutcome)
    | FilterClicked(filter: string)
    | SelectClicked(id: string)

  function Apply(s: Screen, e: Event): Screen {
    match e
    case Loaded(outcome) => LoadVehicles(s, outcome)
    case FilterClicked(filter) => ClickFilter(s, filter)
    case SelectClicked(id) => SelectVehicle(s, id)
  }

  function Run(s: Screen, events: seq<Event>): Screen
    decreases |events|
  {
    if events == [] then s else Run(Apply(s, events[0]), events[1..])
  }

  /** Every single event keeps the grid in step with the state, so an
      in-place selection update never disagrees with a re-render. */
  lemma ApplyKeepsInSync(s: Screen, e: Event)
    requires InSync(s)
    ensures InSync(Apply(s, e))
  {
  }

  /** From construction on, through any sequence of loads, filter clicks and
      selections, the grid shows what the state says. */
  lemma {:induction false} RunKeepsInSync(s: Screen, events: seq<Event>)
    requires InSync(s)
    ensures InSync(Run(s, events))
    decreases |events|
  {
    if events != [] {
      ApplyKeepsInSync(s, events[0]);
      RunKeepsInSync(Apply(s, events[0]), events[1..]);
    }
  }

  /** Hence, whatever happens on the screen, its grid never marks two
      different ids. */
  lemma RunMarksAtMostOneId(s: Screen, events: seq<Event>)
    requires InSync(s)
    ensures Run(s, events).grid.Cards? ==> AtMostOneIdSelected(Run(s, events).grid.cards)
  {
    RunKeepsInSync(s, events);
    var t := Run(s, events);
    if t.grid.Cards? {
      RenderMarksAtMostOneId(Visible(t.vehicles, t.currentFilter), t.selectedVehicle);
    }
  }

  /** Every filter button is shown active iff its `data-filter` is the
      current filter. */
  predicate ButtonsReflectFilter(s: Screen) {
    forall i | 0 <= i < |s.filterButtons| :: s.filterButtons[i].active <==> s.filterButtons[i].filter == s.currentFilter
  }

  /** A filter click establishes the button state, and every event keeps it. */
  lemma ApplyKeepsButtonsReflectFilter(s: Screen, e: Event)
    requires ButtonsReflectFilter(s) || e.FilterClicked?
    ensures ButtonsReflectFilter(Apply(s, e))
  {
  }

  /** Once any filter button has been clicked, the pressed button is the
      current filter's through every later load, filter click and selection. */
  lemma {:induction false} RunKeepsButtonsReflectFilter(s: Screen, events: seq<Event>)
    requires ButtonsReflectFilter(s)
    ensures ButtonsReflectFilter(Run(s, events))
    decreases |events|
  {
    if events != [] {
      ApplyKeepsButtonsReflectFilter(s, events[0]);
      RunKeepsButtonsReflectFilter(Apply(s, events[0]), events[1..]);
    }
  }

  /** A freshly constructed screen is in sync: its grid holds no cards yet. */
  lemma ConstructInSync(store: Store, markup: Markup)
    ensures InSync(Construct(store, markup))
  {
  }

  /** From construction on, whatever loads, filter clicks and selections
      follow, the grid never marks cards with two different ids. */
  lemma ScreenNeverMarksTwoIds(store: Store, markup: Markup, events: seq<Event>)
    ensures var t := Run(Construct(store, markup), events);
            t.grid.Cards? ==> AtMostOneIdSelected(t.grid.cards)
  {
    ConstructInSync(store, markup);
    RunMarksAtMostOneId(Construct(store, markup), events);
  }

  /** A non-empty selection is persisted: a screen constructed later from the
      same store starts with it selected. */
  lemma SelectionSurvivesReload(s: Screen, id: string, markup: Markup)
    requires id != ""
    ensures Construct(SelectVehicle(s, id).store, markup).selectedVehicle == Some(id)
  {
  }

  /** Selecting a non-empty id always lets continue navigate; with an empty
      id (falsy) it never does. */
  lemma ContinueAfterSelect(s: Screen, id: string)
    ensures ContinueNavigates(SelectVehicle(s, id)) <==> id != ""
  {
  }

  /** Without a click on a select button, continue does exactly what the
      page markup allowed: constructing and loading never enable it. */
  lemma LoadNeverEnablesContinue(store: Store, markup: Markup, outcome: InventoryOutcome)
    ensures LoadVehicles(Construct(store, markup), outcome).continueEnabled == markup.continueEnabled
  {
  }

  /** Filtering by a category no record has leaves an empty card list, not
      the empty-inventory notice, and stays in the grid display. */
  lemma FilterToEmptyCategory(s: Screen, filter: string)
    requires filter != AllFilter
    requires forall i | 0 <= i < |s.vehicles| :: !Matches(s.vehicles[i], filter)
    ensures ClickFilter(s, filter).grid == Cards([])
    ensures ModeOf(ClickFilter(s, filter).shown) == ModeOf(s.shown)
  {
  }

  /** A retry after a failed load is a full reload: the failed attempt leaves
      no trace in the result. */
  lemma RetryForgetsFailure(s: Screen, failure: InventoryOutcome, outcome: InventoryOutcome)
    requires !failure.Ok?
    ensures LoadVehicles(LoadVehicles(s, failure), outcome) == LoadVehicles(s, outcome)
  {
  }

  /** A two-record inventory: "A" is an suv, "B" a sedan. */
  const ExampleA := Vehicle("A", "", "", Some("suv"), "", "", "")
  const ExampleB := Vehicle("B", "", "", Some("sedan"), "", "", "")

  /** Loaded with nothing selected, both cards show, neither marked. */
  lemma ExampleLoad(store: Store, markup: Markup)
    requires SelectedVehicleKey !in store
    ensures var loaded := LoadVehicles(Construct(store, markup), Ok([ExampleA, ExampleB]));
            && loaded.grid == Cards([Card("A", false), Card("B", false)])
            && loaded.selectedVehicle == None
  {
  }

  /** The "suv" filter shows exactly card "A". */
  lemma ExampleFilter(s: Screen)
    requires s.vehicles == [ExampleA, ExampleB] && s.selectedVehicle == None
    ensures ClickFilter(s, "suv").grid == Cards([Card("A", false)])
  {
  }

  /** Selecting "B" and going back to "all" marks only "B" and lets continue
      navigate. */
  lemma ExampleSelect(s: Screen)
    requires s.vehicles == [ExampleA, ExampleB]
    ensures var all := ClickFilter(SelectVehicle(s, "B"), AllFilter);
            all.grid == Cards([Card("A", false), Card("B", true)]) && ContinueNavigates(all)
  {
  }
}

=== FILE: wrappers.dfy ===
/** Optional values, and the two JavaScript idioms over possibly-missing
    strings that the booking flow leans on: truthiness and `a || b`. */
module Wrappers {

  /** A value that may be absent (`null` or `undefined` in the browser). */
  datatype Option<+T> = None | Some(value: T)

  /** A string-or-null is truthy in JavaScript iff it is present and non-empty. */
  predicate Truthy(o: Option<string>) {
    o.Some? && o.value != ""
  }

  /** JavaScript's `a || b` on string-or-null operands: the first operand when
      it is truthy, otherwise the second, whatever it is. */
  function Or(a: Option<string>, b: Option<string>): (r: Option<string>)
    ensures Truthy(r) <==> Truthy(a) || Truthy(b)
    ensures Truthy(a) ==> r == a
    ensures !Truthy(a) ==> r == b
  {
    if Truthy(a) then a else b
  }
}
